=== FILE: README.md ===
# Notification settings manager

A Dafny model of Sentry's notification-settings manager. It covers four pieces:

- **Legacy translation.** DEPLOY, ISSUE_ALERTS and WORKFLOW map to a legacy option key; each supported (type, value) pair maps to a legacy scalar.
- **Validation.** A (type, value) pair is valid exactly when it has a legacy scalar.
- **Resolution.** The scope and the target of a setting are each chosen by first match.
- **The manager.** Three operations work over a structured settings table:
  - `update_settings` validates, resolves, then gets or creates the row and rewrites it only when the value differs.
  - `remove_settings` deletes the matching row.
  - `get_settings` reads a row, and an absent row reads as DEFAULT.

The settings table is a `map` from the six-part key (scope type, scope id, target type, target id, provider, type) to a value. Update and remove are pure functions from the old table to the new one, and each also returns the legacy option it would write or unset. Get reads the table without changing it.

Modules:

- `Wrappers`: `Option` and `Result`.
- `NotificationTypes`: the enumerations, the entities and the raised errors.
- `Legacy`: the legacy key and value tables, and `validate`.
- `Resolution`: scope and target resolution, plus a generic first-match reference definition.
- `SettingsManager`: the store and the three operations.

Truthiness follows the Python code. `user_id` and `team_id` are integers, so both None and 0 count as absent. The project and organization passed to `_get_scope` are objects, which are always truthy. User scope carries the user id as given, so the scope identifier is an `Option<nat>`. It is None when only a team id is given.

The fine-tuning test resets a setting by sending -1 to the endpoint (test_user_notification_fine_tuning.py:91-98). `update_settings` itself rejects DEFAULT, because `validate` fails for it (manager.py:179-180; `UpdateRejectsDefault`). In the model, a reset is `remove_settings`, after which the setting reads DEFAULT (`ReadAfterRemove`).

## Model

| member | source | states |
|---|---|---|
| Legacy.LegacyKey | src/sentry/notifications/manager.py:58-69 | a type has a legacy key exactly when it supports some value |
| Legacy.LegacyValue | src/sentry/notifications/manager.py:72-102 | a pair has a legacy scalar exactly when the value is one the type supports; every scalar lies between 0 and 4 |
| Legacy.Validate | src/sentry/notifications/manager.py:13-14 | a pair is valid exactly when its value is in `LegalValues`, an explicit per-type declaration independent of the translation table; a valid pair never has the value DEFAULT and always has a legacy key |
| Legacy.DefaultNeverValid | src/sentry/notifications/manager.py:83-102 | DEFAULT is invalid for every type |
| Legacy.UntabledTypeAcceptsNothing | src/sentry/notifications/manager.py:58-102 | a type without a value table accepts no value and has no legacy key |
| Legacy.LegacyValueTable | src/sentry/notifications/manager.py:83-99 | the legacy scalars: DEPLOY ALWAYS 2, COMMITTED_ONLY 3, NEVER 4; ISSUE_ALERTS ALWAYS 1, NEVER 0; WORKFLOW ALWAYS 0, SUBSCRIBE_ONLY 1, NEVER 2 |
| Legacy.LegacyKeyTable | src/sentry/notifications/manager.py:58-69 | the legacy keys are deploy-emails, mail:alert and workflow:notifications; the DEFAULT type has none |
| Legacy.LegacyValueInjective | src/sentry/notifications/manager.py:83-99 | within one type, two valid values with the same legacy scalar are the same value |
| Legacy.LegacyKeyInjective | src/sentry/notifications/manager.py:65-69 | two types with the same legacy key are the same type |
| Resolution.ResolveScope | src/sentry/notifications/manager.py:17-38 | PROJECT scope exactly when a project is given, even alongside an organization; ORGANIZATION exactly when only an organization is given; USER otherwise; each carries the matching id |
| Resolution.ResolveTarget | src/sentry/notifications/manager.py:41-55 | fails exactly when neither id is truthy; a truthy user id wins, even alongside a team id; TEAM only for a falsy user id and a truthy team id; the target id is never 0 |
| Resolution.ScopeIsFirstMatch | src/sentry/notifications/manager.py:31-38 | the scope equals the first present candidate of project, organization, user |
| Resolution.TargetIsFirstMatch | src/sentry/notifications/manager.py:49-55 | the target equals the first present candidate of user, team, and failure is exactly the absence of any candidate |
| SettingsManager.ResolveKey | src/sentry/notifications/manager.py:182-183 | update and remove fail exactly when there is no target; otherwise the key's scope is the project's id when a project is given and the user id otherwise (never organization), its target is the resolved target, and it keeps the provider and type |
| SettingsManager.ResolveKeyWithOrganization | src/sentry/notifications/manager.py:17-55 | an organization-aware key: fails exactly when there is no target; otherwise its scope is the project's, else the organization's, else the user's, and its target is the resolved target |
| SettingsManager.UpdateSettingsWithOrganization | src/sentry/notifications/manager.py:162-164 | as the update below, but over the organization-aware key, so a per-organization preference gets its own row |
| SettingsManager.UpdateSettings | src/sentry/notifications/manager.py:151-200 | an invalid pair fails with InvalidValue, before the target is checked; a missing target fails with InvalidTarget; a failure leaves the store unchanged; on success only the resolved key changes, to the value; a row is written exactly when it was absent or held a different value; the mirror is the type's legacy key and the value's legacy scalar |
| SettingsManager.RemoveSettings | src/sentry/notifications/manager.py:202-236 | fails with the store unchanged exactly when there is no target; otherwise the store is the old one without the resolved key, so every other row keeps its value and an absent row is a no-op; the legacy key to unset is the type's, possibly None |
| SettingsManager.Read | src/sentry/notifications/manager.py:134-138 | an absent row reads DEFAULT; in a well-formed store, DEFAULT is read exactly when the row is absent |
| SettingsManager.GetSettings | src/sentry/notifications/manager.py:125-149 | fails, with InvalidTarget, exactly when there is no target; otherwise returns the stored value of the key the ids resolve to, and DEFAULT, never an absent value, when no row exists; in a well-formed store the result is DEFAULT or a valid value for the type |
| SettingsManager.UpdatePreservesWellFormed | src/sentry/notifications/manager.py:179-196 | update keeps every stored value valid for its type and every target id truthy |
| SettingsManager.RemovePreservesWellFormed | src/sentry/notifications/manager.py:224-235 | remove keeps the store well formed |
| SettingsManager.UpdateIdempotent | src/sentry/notifications/manager.py:185-196 | repeating an update leaves the store unchanged and writes no row |
| SettingsManager.RemoveIdempotent | src/sentry/notifications/manager.py:227-235 | removing twice equals removing once |
| SettingsManager.UpdateRejectsDefault | src/sentry/notifications/manager.py:179-180 | writing DEFAULT fails with InvalidValue and the store untouched |
| SettingsManager.ReadAfterUpdate | tests/sentry/api/endpoints/test_user_notification_fine_tuning.py:77-89 | after a successful update, get_settings with the same ids returns the written value |
| SettingsManager.ReadAfterRemove | tests/sentry/api/endpoints/test_user_notification_fine_tuning.py:91-105 | after a successful remove, get_settings with the same ids returns DEFAULT |
| SettingsManager.UpdateLeavesOtherProject | tests/sentry/api/endpoints/test_user_notification_fine_tuning.py:68-89 | writing project P's setting does not change what project P2 reads |
| SettingsManager.RemoveLeavesOtherProject | tests/sentry/api/endpoints/test_user_notification_fine_tuning.py:91-112 | resetting project P's setting does not change what project P2 reads |
| SettingsManager.IssueAlertsScenario | tests/sentry/api/endpoints/test_user_notification_fine_tuning.py:68-112 | ALWAYS on P and NEVER on P2 read back as written; after resetting P, P reads DEFAULT and P2 still reads NEVER |
| SettingsManager.DeployMirrorScenario | src/sentry/notifications/manager.py:198-199 | an ALWAYS deploy update for a user mirrors legacy key deploy-emails with scalar 2 |
| SettingsManager.ExtractIdAsWritten | src/sentry/notifications/manager.py:174-177 | the id extraction raises exactly when the id is falsy and no object is passed |
| SettingsManager.ExtractId | src/sentry/notifications/manager.py:220-223 | the intended extraction never raises; it yields no id exactly when neither a truthy id nor an object is passed |
| SettingsManager.UserObjectOnlyCallRaisesAsWritten | tests/sentry/api/endpoints/test_user_notification_fine_tuning.py:29-35 | a call passing only a user object raises while extracting the absent team id |
| SettingsManager.OrganizationUpdateMissesOrganizationRead | src/sentry/notifications/manager.py:182 | as written, a per-organization update leaves what a read for that organization returns unchanged |
| SettingsManager.ReadAfterUpdateWithOrganization | src/sentry/notifications/manager.py:162-164 | with the organization-aware update, reading back with the same user, team, project and organization ids returns the written value |
| SettingsManager.ExtractIdRefinesAsWritten | src/sentry/notifications/manager.py:176-177 | wherever the as-written extraction succeeds, the intended one gives the same id |
| SettingsManager.UserObjectOnlyUpdateSucceeds | src/sentry/notifications/manager.py:179-196 | with the intended extraction, a valid update that passes only a user object writes that user's row |

## Findings

| source | as written | input that shows it | evidently intended | confidence | as-written member | corrected member |
|---|---|---|---|---|---|---|
| src/sentry/notifications/manager.py:176-177 | `team_id or (kwargs.get("team") or {}).id` reads `.id` off an empty dict when no team is given | `update_settings(EMAIL, ISSUE_ALERTS, ALWAYS, user=U, project=P)`, the call at line 29 of the fine-tuning test, raises AttributeError | a missing team (or user) yields no id, and target resolution decides | high, not executed | SettingsManager.ExtractIdAsWritten (with UserObjectOnlyCallRaisesAsWritten) | SettingsManager.ExtractId (with UserObjectOnlyUpdateSucceeds) |
| src/sentry/notifications/manager.py:182 | `_get_scope(user_id_option, project=project_option)` never passes an organization, although the docstring's Scenario 3 (line 164) is updating a user's per-organization preferences | `update_settings(EMAIL, DEPLOY, ALWAYS, user=U, organization=O)`, the call at lines 39-45 of the fine-tuning test, writes the (USER, U) row that every organization and every organization-independent update share; a read for organization O is unchanged | an organization given without a project scopes the row to (ORGANIZATION, O.id) | medium, not executed | SettingsManager.UpdateSettings (with OrganizationUpdateMissesOrganizationRead) | SettingsManager.UpdateSettingsWithOrganization (with ReadAfterUpdateWithOrganization) |

The extraction defect is also at lines 222-223 of `remove_settings`, and `remove_settings` drops the organization the same way at line 224. The manager operations take already-extracted ids, which is the corrected behaviour.

## Left out

- SettingsManager.GetSettings: the source body is a stub that returns None. The model follows its doc comment, which promises DEFAULT for an absent row. It assumes the key is resolved with `_get_scope` and `_get_target`, treating the given project and organization ids as present objects.
- SettingsManager.ReadAfterUpdate: holds for reads without an organization id only, because `update_settings` resolves its scope without the organization (see Findings); `ReadAfterUpdateWithOrganization` states read-after-write with one.
- The legacy option store (`UserOption.objects.set_value` / `unset_value`) is not part of this model. Update returns the mirrored (key, scalar) pair and remove returns the key to unset. The `kwargs` scoping of legacy rows is not modelled.
- `transaction.atomic` and concurrent writers: each operation is one atomic step on the store.
- `notify` and `remove_settings_for_user/team/project/organization`: their bodies are `pass`, so there is no behaviour to model.
- Database constraints are not part of this model. A row with a None scope identifier, which a team-only call produces, is kept as is.
- The definitions of the enumerations are not part of this model. The shown code names the types DEPLOY, ISSUE_ALERTS and WORKFLOW, the five option values, and the EMAIL provider. `TypeDefault` is not named in the shown code: it stands for every type outside the three tables. `Slack` is an added second provider, so that the provider part of the key is not trivial; the manager only passes the provider through.
- The HTTP endpoint behind the fine-tuning test is not part of this model. This covers its `-1` reset value, reports, email routing and 403/404/400 responses.
- The schema migrations and the release detail React view contain no settings logic.

=== FILE: legacy.dfy ===
/** Translation from the structured notification settings to the legacy
    flat option store, and the validity check defined through it. */
module Legacy {
  import opened Wrappers
  import opened NotificationTypes

  /** The legacy option key of each type that has one. */
  const LegacyKeys: map<SettingType, string> := map[
    Deploy := "deploy-emails",
    IssueAlerts := "mail:alert",
    Workflow := "workflow:notifications"
  ]

  /** One inner table per type, from the values that type supports to the
      scalar the legacy store keeps for them. */
  const LegacyValues: map<SettingType, map<OptionValue, int>> := map[
    Deploy := map[Always := 2, CommittedOnly := 3, Never := 4],
    IssueAlerts := map[Always := 1, Never := 0],
    Workflow := map[Always := 0, SubscribeOnly := 1, Never := 2]
  ]

  /** The legacy key of `t`, or None when `t` has no legacy counterpart. */
  function LegacyKey(t: SettingType): (r: Option<string>)
    ensures r.Some? <==> LegalValues(t) != {}
  {
    if t in LegacyKeys then Some(LegacyKeys[t]) else None
  }

  /** The legacy scalar of `v` under `t`: a missing type reads as an empty
      inner table, so both a missing type and a missing value give None. */
  function LegacyValue(t: SettingType, v: OptionValue): (r: Option<int>)
    ensures r.Some? <==> v in LegalValues(t)
    ensures r.Some? ==> 0 <= r.value <= 4
  {
    var inner := if t in LegacyValues then LegacyValues[t] else map[];
    if v in inner then Some(inner[v]) else None
  }

  /** A (type, value) pair is valid exactly when it has a legacy scalar. */
  predicate Validate(t: SettingType, v: OptionValue)
    ensures Validate(t, v) <==> v in LegalValues(t)
    ensures Validate(t, v) ==> v != Default && LegacyKey(t).Some?
  {
    LegacyValue(t, v).Some?
  }

  /** An explicit declaration of the values each type supports, independent
      of the translation table. */
  function LegalValues(t: SettingType): set<OptionValue> {
    match t
    case Deploy => {Always, CommittedOnly, Never}
    case IssueAlerts => {Always, Never}
    case Workflow => {Always, SubscribeOnly, Never}
    case TypeDefault => {}
  }

  /** DEFAULT is never a storable value, whatever the type. */
  lemma DefaultNeverValid(t: SettingType)
    ensures !Validate(t, Default)
  {
  }

  /** A type without a value table accepts no value at all. */
  lemma UntabledTypeAcceptsNothing(t: SettingType, v: OptionValue)
    requires t !in LegacyValues
    ensures !Validate(t, v)
    ensures LegacyKey(t).None?
  {
  }

  /** The scalars of the three tables, entry by entry. */
  lemma LegacyValueTable()
    ensures LegacyValue(Deploy, Always) == Some(2)
    ensures LegacyValue(Deploy, CommittedOnly) == Some(3)
    ensures LegacyValue(Deploy, Never) == Some(4)
    ensures LegacyValue(IssueAlerts, Always) == Some(1)
    ensures LegacyValue(IssueAlerts, Never) == Some(0)
    ensures LegacyValue(Workflow, Always) == Some(0)
    ensures LegacyValue(Workflow, SubscribeOnly) == Some(1)
    ensures LegacyValue(Workflow, Never) == Some(2)
  {
  }

  /** The legacy keys, and the type without one. */
  lemma LegacyKeyTable()
    ensures LegacyKey(Deploy) == Some("deploy-emails")
    ensures LegacyKey(IssueAlerts) == Some("mail:alert")
    ensures LegacyKey(Workflow) == Some("workflow:notifications")
    ensures LegacyKey(TypeDefault) == None
  {
  }

  /** Within one type, distinct supported values have distinct scalars, so a
      legacy scalar determines the value it came from. */
  lemma LegacyValueInjective(t: SettingType, v1: OptionValue, v2: OptionValue)
    requires Validate(t, v1) && Validate(t, v2)
    requires LegacyValue(t, v1) == LegacyValue(t, v2)
    ensures v1 == v2
  {
  }

  /** Distinct types never share a legacy key. */
  lemma LegacyKeyInjective(t1: SettingType, t2: SettingType)
    requires LegacyKey(t1).Some? && LegacyKey(t1) == LegacyKey(t2)
    ensures t1 == t2
  {
  }
}

=== FILE: manager.dfy ===
/** The notifications manager: update, remove and read of structured
    notification settings held in a keyed store, with the legacy option that
    each write mirrors returned as an output. */
module SettingsManager {
  import opened Wrappers
  import opened NotificationTypes
  import opened Legacy
  import opened Resolution

  /** The unique key of a structured setting row. */
  datatype SettingKey = SettingKey(scope: Scope, target: Target, provider: Provider,
                                   settingType: SettingType)

  /** The structured settings table: at most one value per key, and an absent
      key means the setting is at its default. */
  type Store = map<SettingKey, OptionValue>

  /** The (key, value) pair mirrored into the legacy option store. */
  datatype LegacyOption = LegacyOption(key: string, value: int)

  /** What a successful update did: whether the row was created or rewritten,
      and the legacy option it mirrors. */
  datatype UpdateOutcome = UpdateOutcome(rowWritten: bool, mirror: LegacyOption)

  /** The store after an operation, and either what it reports or the error
      it raised. */
  datatype Reply<+W> = Reply(store: Store, status: Result<W, SettingsError>)

  /** Every stored value is valid for its type and every target id is a
      truthy id. */
  ghost predicate WellFormed(store: Store) {
    forall k :: k in store ==> Validate(k.settingType, store[k]) && k.target.identifier != 0
  }

  /** The key update and remove act on: scope from the user and project only
      (they never pass an organization), target from the user and team ids. */
  function ResolveKey(provider: Provider, t: SettingType, userId: Option<nat>,
                      teamId: Option<nat>, project: Option<Project>): (r: Result<SettingKey, SettingsError>)
    ensures r.Failure? <==> !Truthy(userId) && !Truthy(teamId)
    ensures r.Failure? ==> r.error == InvalidTarget
    ensures r.Success? ==> r.value.scope.scopeType != OrganizationScope
    ensures r.Success? ==> r.value.provider == provider && r.value.settingType == t
    ensures r.Success? ==> r.value.target.identifier != 0
    ensures r.Success? ==> r.value.scope == (if project.Some? then Scope(ProjectScope, Some(project.value.id))
                                            else Scope(UserScope, userId))
    ensures r.Success? ==> ResolveTarget(userId, teamId) == Success(r.value.target)
  {
    match ResolveTarget(userId, teamId)
    case Failure(e) => Failure(e)
    case Success(target) => Success(SettingKey(ResolveScope(userId, project, None), target, provider, t))
  }

  /** The key an organization-aware update acts on: the scope resolved from
      the user, project and organization, and the target from the user and
      team ids. */
  function ResolveKeyWithOrganization(provider: Provider, t: SettingType, userId: Option<nat>,
                                      teamId: Option<nat>, project: Option<Project>,
                                      organization: Option<Organization>)
    : (r: Result<SettingKey, SettingsError>)
    ensures r.Failure? <==> !Truthy(userId) && !Truthy(teamId)
    ensures r.Failure? ==> r.error == InvalidTarget
    ensures r.Success? ==> r.value.scope == ResolveScope(userId, project, organization)
    ensures r.Success? ==> ResolveTarget(userId, teamId) == Success(r.value.target)
    ensures r.Success? ==> r.value.provider == provider && r.value.settingType == t
  {
    match ResolveTarget(userId, teamId)
    case Failure(e) => Failure(e)
    case Success(target) => Success(SettingKey(ResolveScope(userId, project, organization), target, provider, t))
  }

  /** The update the docstring's per-organization scenario calls for: as
      `update_settings`, but an organization given without a project scopes
      the row to that organization. */
  function UpdateSettingsWithOrganization(store: Store, provider: Provider, t: SettingType, v: OptionValue,
                                          userId: Option<nat>, teamId: Option<nat>, project: Option<Project>,
                                          organization: Option<Organization>)
    : (r: Reply<UpdateOutcome>)
    ensures r.status.Failure? ==> r.store == store
    ensures !Validate(t, v) ==> r.status == Failure(InvalidValue)
    ensures Validate(t, v) ==> (r.status.Failure? <==> !Truthy(userId) && !Truthy(teamId))
    ensures Validate(t, v) && r.status.Failure? ==> r.status.error == InvalidTarget
    ensures r.status.Success? ==>
              && ResolveKeyWithOrganization(provider, t, userId, teamId, project, organization).Success?
              && var k := ResolveKeyWithOrganization(provider, t, userId, teamId, project, organization).value;
              && r.store == store[k := v]
              && (r.status.value.rowWritten <==> k !in store || store[k] != v)
    ensures r.status.Success? ==>
              && LegacyKey(t).Some? && LegacyValue(t, v).Some?
              && r.status.value.mirror == LegacyOption(LegacyKey(t).value, LegacyValue(t, v).value)
  {
    if !Validate(t, v) then Reply(store, Failure(InvalidValue))
    else
      match ResolveKeyWithOrganization(provider, t, userId, teamId, project, organization)
      case Failure(e) => Reply(store, Failure(e))
      case Success(k) =>
        var mirror := LegacyOption(LegacyKey(t).value, LegacyValue(t, v).value);
        if k !in store then Reply(store[k := v], Success(UpdateOutcome(true, mirror)))
        else if store[k] != v then Reply(store[k := v], Success(UpdateOutcome(true, mirror)))
        else Reply(store, Success(UpdateOutcome(false, mirror)))
  }

  /** `update_settings` as written: validate, resolve scope and target, then
      get-or-create the row and rewrite it only when the stored value differs.
      The scope is resolved without the organization, so a per-organization
      call writes the user-scoped row. */
  function UpdateSettings(store: Store, provider: Provider, t: SettingType, v: OptionValue,
                          userId: Option<nat>, teamId: Option<nat>, project: Option<Project>)
    : (r: Reply<UpdateOutcome>)
    ensures r.status.Failure? ==> r.store == store
    ensures !Validate(t, v) ==> r.status == Failure(InvalidValue)
    ensures Validate(t, v) ==> (r.status.Failure? <==> !Truthy(userId) && !Truthy(teamId))
    ensures Validate(t, v) && r.status.Failure? ==> r.status.error == InvalidTarget
    ensures r.status.Success? ==>
              && ResolveKey(provider, t, userId, teamId, project).Success?
              && var k := ResolveKey(provider, t, userId, teamId, project).value;
              && r.store == store[k := v]
              && (r.status.value.rowWritten <==> k !in store || store[k] != v)
    ensures r.status.Success? ==>
              && LegacyKey(t).Some? && LegacyValue(t, v).Some?
              && r.status.value.mirror == LegacyOption(LegacyKey(t).value, LegacyValue(t, v).value)
  {
    UpdateSettingsWithOrganization(store, provider, t, v, userId, teamId, project, None)
  }

  /** `remove_settings`: resolve scope and target, delete the matching row if
      any, and report the legacy key to unset (None for a type without one). */
  function RemoveSettings(store: Store, provider: Provider, t: SettingType,
                          userId: Option<nat>, teamId: Option<nat>, project: Option<Project>)
    : (r: Reply<Option<string>>)
    ensures r.status.Failure? <==> !Truthy(userId) && !Truthy(teamId)
    ensures r.status.Failure? ==> r.store == store && r.status.error == InvalidTarget
    ensures r.status.Success? ==>
              && ResolveKey(provider, t, userId, teamId, project).Success?
              && var k := ResolveKey(provider, t, userId, teamId, project).value;
              && r.store == store - {k}
    ensures r.status.Success? ==> r.status.value == LegacyKey(t)
  {
    match ResolveKey(provider, t, userId, teamId, project)
    case Failure(e) => Reply(store, Failure(e))
    case Success(k) => Reply(store - {k}, Success(LegacyKey(t)))
  }

  /** The stored value of `k`, reading an absent row as DEFAULT. */
  function Read(store: Store, k: SettingKey): (r: OptionValue)
    ensures k !in store ==> r == Default
    ensures WellFormed(store) ==> (r == Default <==> k !in store)
    ensures r != Default ==> k in store && store[k] == r
  {
    if k in store then store[k] else Default
  }

  /** `get_settings`: the value of the setting the ids resolve to, DEFAULT
      when no row exists, never absent. */
  function GetSettings(store: Store, provider: Provider, t: SettingType,
                       userId: Option<nat>, teamId: Option<nat>,
                       projectId: Option<nat>, organizationId: Option<nat>)
    : (r: Result<OptionValue, SettingsError>)
    ensures r.Failure? <==> !Truthy(userId) && !Truthy(teamId)
    ensures r.Failure? ==> r.error == InvalidTarget
    ensures r.Success? && WellFormed(store) ==> (r.value == Default || Validate(t, r.value))
    ensures r.Success? ==>
              var k := SettingKey(ResolveScope(userId, ProjectOf(projectId), OrganizationOf(organizationId)),
                                  ResolveTarget(userId, teamId).value, provider, t);
              && (k !in store ==> r.value == Default)
              && (k in store ==> r.value == store[k])
  {
    match ResolveTarget(userId, teamId)
    case Failure(e) => Failure(e)
    case Success(target) =>
      var k := SettingKey(ResolveScope(userId, ProjectOf(projectId), OrganizationOf(organizationId)),
                          target, provider, t);
      Success(Read(store, k))
  }

  /** The project object a given project id stands for. */
  function ProjectOf(projectId: Option<nat>): Option<Project> {
    if projectId.Some? then Some(Project(projectId.value)) else None
  }

  /** The organization object a given organization id stands for. */
  function OrganizationOf(organizationId: Option<nat>): Option<Organization> {
    if organizationId.Some? then Some(Organization(organizationId.value)) else None
  }

  /** The id of an optional project object. */
  function ProjectId(project: Option<Project>): Option<nat> {
    if project.Some? then Some(project.value.id) else None
  }

  /** The id of an optional organization object. */
  function OrganizationId(organization: Option<Organization>): Option<nat> {
    if organization.Some? then Some(organization.value.id) else None
  }

  /** Update keeps the store well formed. */
  lemma UpdatePreservesWellFormed(store: Store, provider: Provider, t: SettingType, v: OptionValue,
                                  userId: Option<nat>, teamId: Option<nat>, project: Option<Project>)
    requires WellFormed(store)
    ensures WellFormed(UpdateSettings(store, provider, t, v, userId, teamId, project).store)
  {
  }

  /** Remove keeps the store well formed. */
  lemma RemovePreservesWellFormed(store: Store, provider: Provider, t: SettingType,
                                  userId: Option<nat>, teamId: Option<nat>, project: Option<Project>)
    requires WellFormed(store)
    ensures WellFormed(RemoveSettings(store, provider, t, userId, teamId, project).store)
  {
  }

  /** Repeating an update leaves the store as the first call left it and
      writes no row. */
  lemma UpdateIdempotent(store: Store, provider: Provider, t: SettingType, v: OptionValue,
                         userId: Option<nat>, teamId: Option<nat>, project: Option<Project>)
    ensures var r1 := UpdateSettings(store, provider, t, v, userId, teamId, project);
            var r2 := UpdateSettings(r1.store, provider, t, v, userId, teamId, project);
            && r2.store == r1.store
            && (r2.status.Success? ==> !r2.status.value.rowWritten)
  {
  }

  /** Removing twice is the same as removing once. */
  lemma RemoveIdempotent(store: Store, provider: Provider, t: SettingType,
                         userId: Option<nat>, teamId: Option<nat>, project: Option<Project>)
    ensures var r1 := RemoveSettings(store, provider, t, userId, teamId, project);
            RemoveSettings(r1.store, provider, t, userId, teamId, project) == r1
  {
  }

  /** DEFAULT cannot be written: the update fails validation and the store is
      untouched. */
  lemma UpdateRejectsDefault(store: Store, provider: Provider, t: SettingType,
                             userId: Option<nat>, teamId: Option<nat>, project: Option<Project>)
    ensures UpdateSettings(store, provider, t, Default, userId, teamId, project)
              == Reply(store, Failure(InvalidValue))
  {
  }

  /** Reading back the setting a successful update wrote returns the written
      value. */
  lemma ReadAfterUpdate(store: Store, provider: Provider, t: SettingType, v: OptionValue,
                        userId: Option<nat>, teamId: Option<nat>, project: Option<Project>)
    requires UpdateSettings(store, provider, t, v, userId, teamId, project).status.Success?
    ensures GetSettings(UpdateSettings(store, provider, t, v, userId, teamId, project).store,
                        provider, t, userId, teamId, ProjectId(project), None) == Success(v)
  {
  }

  /** After a successful remove, reading the same setting returns DEFAULT. */
  lemma ReadAfterRemove(store: Store, provider: Provider, t: SettingType,
                        userId: Option<nat>, teamId: Option<nat>, project: Option<Project>)
    requires RemoveSettings(store, provider, t, userId, teamId, project).status.Success?
    ensures GetSettings(RemoveSettings(store, provider, t, userId, teamId, project).store,
                        provider, t, userId, teamId, ProjectId(project), None) == Success(Default)
  {
  }

  /** Writing project `p`'s setting leaves project `p2`'s setting as it was. */
  lemma UpdateLeavesOtherProject(store: Store, provider: Provider, t: SettingType, v: OptionValue,
                                 userId: Option<nat>, p: Project, p2: Project)
    requires p.id != p2.id
    ensures GetSettings(UpdateSettings(store, provider, t, v, userId, None, Some(p)).store,
                        provider, t, userId, None, Some(p2.id), None)
            == GetSettings(store, provider, t, userId, None, Some(p2.id), None)
  {
  }

  /** Resetting project `p`'s setting leaves project `p2`'s setting as it was. */
  lemma RemoveLeavesOtherProject(store: Store, provider: Provider, t: SettingType,
                                 userId: Option<nat>, p: Project, p2: Project)
    requires p.id != p2.id
    ensures GetSettings(RemoveSettings(store, provider, t, userId, None, Some(p)).store,
                        provider, t, userId, None, Some(p2.id), None)
            == GetSettings(store, provider, t, userId, None, Some(p2.id), None)
  {
  }

  /** A user's per-project issue-alert choice reads back as written; resetting
      it reads DEFAULT while the second project keeps NEVER. */
  lemma IssueAlertsScenario(store: Store, u: nat, p: Project, p2: Project)
    requires u != 0 && p.id != p2.id
    ensures var s1 := UpdateSettings(store, Email, IssueAlerts, Always, Some(u), None, Some(p)).store;
            var s2 := UpdateSettings(s1, Email, IssueAlerts, Never, Some(u), None, Some(p2)).store;
            var s3 := RemoveSettings(s2, Email, IssueAlerts, Some(u), None, Some(p)).store;
            && GetSettings(s2, Email, IssueAlerts, Some(u), None, Some(p.id), None) == Success(Always)
            && GetSettings(s2, Email, IssueAlerts, Some(u), None, Some(p2.id), None) == Success(Never)
            && GetSettings(s3, Email, IssueAlerts, Some(u), None, Some(p.id), None) == Success(Default)
            && GetSettings(s3, Email, IssueAlerts, Some(u), None, Some(p2.id), None) == Success(Never)
  {
  }

  /** An ALWAYS deploy setting mirrors to legacy key "deploy-emails" with
      scalar 2. */
  lemma DeployMirrorScenario(store: Store, u: nat)
    requires u != 0
    ensures UpdateSettings(store, Email, Deploy, Always, Some(u), None, None).status
              == Success(UpdateOutcome(
                   SettingKey(Scope(UserScope, Some(u)), Target(UserTarget, u), Email, Deploy) !in store
                   || store[SettingKey(Scope(UserScope, Some(u)), Target(UserTarget, u), Email, Deploy)] != Always,
                   LegacyOption("deploy-emails", 2)))
  {
  }

  /** The id extraction `id or (obj or {}).id` as written, where `obj` stands
      for the deprecated user or team object by its id: with a falsy id and no
      object it reads `.id` off an empty dict and raises. */
  function ExtractIdAsWritten(id: Option<nat>, obj: Option<nat>): (r: Result<Option<nat>, SettingsError>)
    ensures r.Failure? <==> !Truthy(id) && obj.None?
    ensures r.Failure? ==> r.error == MissingIdAttribute
    ensures Truthy(id) ==> r == Success(id)
    ensures !Truthy(id) && obj.Some? ==> r == Success(obj)
  {
    if Truthy(id) then Success(id)
    else if obj.Some? then Success(obj)
    else Failure(MissingIdAttribute)
  }

  /** The intended extraction: the id when truthy, else the object's id, else
      no id at all, leaving a missing target to target resolution. */
  function ExtractId(id: Option<nat>, obj: Option<nat>): (r: Option<nat>)
    ensures r.None? <==> !Truthy(id) && obj.None?
    ensures Truthy(id) ==> r == id
    ensures !Truthy(id) ==> r == obj
  {
    if Truthy(id) then id else obj
  }

  /** For a call passing only a user object, as the tests do, extracting the
      user id succeeds but extracting the absent team id raises, because `.id`
      is read off an empty dict. */
  lemma UserObjectOnlyCallRaisesAsWritten(u: nat)
    ensures ExtractIdAsWritten(None, Some(u)) == Success(Some(u))
    ensures ExtractIdAsWritten(None, None) == Failure(MissingIdAttribute)
  {
  }

  /** Where the as-written extraction does not raise, the intended one agrees
      with it. */
  lemma ExtractIdRefinesAsWritten(id: Option<nat>, obj: Option<nat>)
    ensures ExtractIdAsWritten(id, obj).Success? ==> ExtractIdAsWritten(id, obj).value == ExtractId(id, obj)
  {
  }

  /** With the intended extraction, a valid update passing only a user object
      with a truthy id writes a user-targeted row. */
  lemma UserObjectOnlyUpdateSucceeds(store: Store, provider: Provider, t: SettingType,
                                     v: OptionValue, u: nat, project: Option<Project>)
    requires Validate(t, v) && u != 0
    ensures var r := UpdateSettings(store, provider, t, v, ExtractId(None, Some(u)),
                                    ExtractId(None, None), project);
            && r.status.Success?
            && SettingKey(ResolveScope(Some(u), project, None), Target(UserTarget, u), provider, t) in r.store
  {
  }

  /** As written, a per-organization update never reaches the
      organization-scoped setting: what a read for organization `o` returns is
      the same before and after the update. */
  lemma OrganizationUpdateMissesOrganizationRead(store: Store, provider: Provider, t: SettingType,
                                                 v: OptionValue, u: nat, o: Organization)
    ensures GetSettings(UpdateSettings(store, provider, t, v, Some(u), None, None).store,
                        provider, t, Some(u), None, None, Some(o.id))
            == GetSettings(store, provider, t, Some(u), None, None, Some(o.id))
  {
  }

  /** With the organization-aware update, reading back with the same user,
      team, project and organization ids returns the written value. */
  lemma ReadAfterUpdateWithOrganization(store: Store, provider: Provider, t: SettingType, v: OptionValue,
                                        userId: Option<nat>, teamId: Option<nat>, project: Option<Project>,
                                        organization: Option<Organization>)
    requires UpdateSettingsWithOrganization(store, provider, t, v, userId, teamId, project, organization).status.Success?
    ensures GetSettings(UpdateSettingsWithOrganization(store, provider, t, v, userId, teamId, project, organization).store,
                        provider, t, userId, teamId, ProjectId(project), OrganizationId(organization))
            == Success(v)
  {
  }
}

=== FILE: resolution.dfy ===
/** Scope and target resolution: which object a setting is attached to and
    who it is for, each chosen by the first candidate present. */
module Resolution {
  import opened Wrappers
  import opened NotificationTypes

  /** The (scope_type, scope_identifier) pair. The identifier is optional
      because user scope carries the caller's user id as given, which may be
      None. */
  datatype Scope = Scope(scopeType: ScopeType, identifier: Option<nat>)

  /** The (target_type, target_identifier) pair. */
  datatype Target = Target(targetType: TargetType, identifier: nat)

  /** Python truthiness of an optional integer id: None and 0 are both false. */
  predicate Truthy(id: Option<nat>) {
    id.Some? && id.value != 0
  }

  /** The first present candidate, or None when none is present. */
  function FirstMatch<T>(candidates: seq<Option<T>>): (r: Option<T>)
    ensures r.None? <==> forall i :: 0 <= i < |candidates| ==> candidates[i].None?
    ensures r.Some? ==> exists i :: 0 <= i < |candidates| && candidates[i] == r
                          && forall j :: 0 <= j < i ==> candidates[j].None?
  {
    if |candidates| == 0 then None
    else if candidates[0].Some? then candidates[0]
    else
      var rest := FirstMatch(candidates[1..]);
      assert forall i :: 1 <= i < |candidates| ==> candidates[i] == candidates[1..][i - 1];
      rest
  }

  /** The scope: the project if given, else the organization if given, else
      the user. Project and organization are objects, which are always truthy. */
  function ResolveScope(userId: Option<nat>, project: Option<Project>,
                        organization: Option<Organization>): (r: Scope)
    ensures r.scopeType == ProjectScope <==> project.Some?
    ensures r.scopeType == OrganizationScope <==> project.None? && organization.Some?
    ensures r.scopeType == UserScope <==> project.None? && organization.None?
    ensures project.Some? ==> r.identifier == Some(project.value.id)
    ensures r.scopeType == OrganizationScope ==> r.identifier == Some(organization.value.id)
    ensures r.scopeType == UserScope ==> r.identifier == userId
  {
    if project.Some? then Scope(ProjectScope, Some(project.value.id))
    else if organization.Some? then Scope(OrganizationScope, Some(organization.value.id))
    else Scope(UserScope, userId)
  }

  /** The target: the user if its id is truthy, else the team if its id is
      truthy, else the call fails. */
  function ResolveTarget(userId: Option<nat>, teamId: Option<nat>): (r: Result<Target, SettingsError>)
    ensures r.Failure? <==> !Truthy(userId) && !Truthy(teamId)
    ensures r.Failure? ==> r.error == InvalidTarget
    ensures Truthy(userId) ==> r == Success(Target(UserTarget, userId.value))
    ensures (r.Success? && r.value.targetType == TeamTarget) <==> (!Truthy(userId) && Truthy(teamId))
    ensures r.Success? && r.value.targetType == TeamTarget ==> Some(r.value.identifier) == teamId
    ensures r.Success? ==> r.value.identifier != 0
  {
    if Truthy(userId) then Success(Target(UserTarget, userId.value))
    else if Truthy(teamId) then Success(Target(TeamTarget, teamId.value))
    else Failure(InvalidTarget)
  }

  /** The scope candidates in priority order; the user is always present. */
  function ScopeCandidates(userId: Option<nat>, project: Option<Project>,
                           organization: Option<Organization>): seq<Option<Scope>> {
    [ if project.Some? then Some(Scope(ProjectScope, Some(project.value.id))) else None,
      if organization.Some? then Some(Scope(OrganizationScope, Some(organization.value.id))) else None,
      Some(Scope(UserScope, userId)) ]
  }

  /** The target candidates in priority order; a falsy id is no candidate. */
  function TargetCandidates(userId: Option<nat>, teamId: Option<nat>): seq<Option<Target>> {
    [ if Truthy(userId) then Some(Target(UserTarget, userId.value)) else None,
      if Truthy(teamId) then Some(Target(TeamTarget, teamId.value)) else None ]
  }

  /** Scope resolution is first-match-wins over project, organization, user. */
  lemma ScopeIsFirstMatch(userId: Option<nat>, project: Option<Project>,
                          organization: Option<Organization>)
    ensures FirstMatch(ScopeCandidates(userId, project, organization))
              == Some(ResolveScope(userId, project, organization))
  {
    var c := ScopeCandidates(userId, project, organization);
    var r := FirstMatch(c);
    assert c[2].Some?;
    var i :| 0 <= i < |c| && c[i] == r && forall j :: 0 <= j < i ==> c[j].None?;
  }

  /** Target resolution is first-match-wins over user, team; it fails exactly
      when neither candidate is present. */
  lemma TargetIsFirstMatch(userId: Option<nat>, teamId: Option<nat>)
    ensures var m := FirstMatch(TargetCandidates(userId, teamId));
            match ResolveTarget(userId, teamId)
            case Success(t) => m == Some(t)
            case Failure(_) => m == None
  {
    var c := TargetCandidates(userId, teamId);
    var r := FirstMatch(c);
    if r.Some? {
      var i :| 0 <= i < |c| && c[i] == r && forall j :: 0 <= j < i ==> c[j].None?;
    }
  }
}

=== FILE: types.dfy ===
/** The enumerations and entities the notification-settings manager works over. */
module NotificationTypes {

  /** What is being configured (`NotificationSettingTypes`). */
  datatype SettingType = TypeDefault | Deploy | IssueAlerts | Workflow

  /** The desired behaviour (`NotificationSettingOptionValues`). */
  datatype OptionValue = Default | Never | Always | SubscribeOnly | CommittedOnly

  /** The delivery channel (`ExternalProviders`); the manager only passes it through. */
  datatype Provider = Email | Slack

  /** Where a setting applies (`NotificationScopeType`). */
  datatype ScopeType = UserScope | OrganizationScope | ProjectScope

  /** Who a setting is for (`NotificationTargetType`). */
  datatype TargetType = UserTarget | TeamTarget

  /** A project object; only its id is read. */
  datatype Project = Project(id: nat)

  /** An organization object; only its id is read. */
  datatype Organization = Organization(id: nat)

  /** The exceptions the manager raises: an unsupported (type, value) pair,
      a call that names neither a user nor a team, and the attribute error of
      reading `.id` off an empty dict while extracting ids. */
  datatype SettingsError = InvalidValue | InvalidTarget | MissingIdAttribute
}

=== FILE: wrappers.dfy ===
/** An optional value and a value-or-error result, standing in for Python's
    None and raised exceptions. */
module Wrappers {

  /** A value that may be absent (Python's `None`). */
  datatype Option<+T> = None | Some(value: T)

  /** Either a value or the error the operation raised. */
  datatype Result<+R, +E> = Success(value: R) | Failure(error: E)
}
